=== FILE: README.md ===
# MKV Player WebTorrent server — a Dafny model of its decision logic

The server (`app.js`) streams a video out of a BitTorrent magnet link over
HTTP. It keeps one session per magnet, reports the download's state, serves
the video with or without byte ranges, and finds subtitles (a sidecar file in
the torrent, a conversion of one, or an extraction from the Matroska video by
ffmpeg). This project models the logic around those calls, with every stream,
process and socket turned into a plain value:

- `base.dfy` (`Base`): `Option` and the first-match search behind
  `Array.prototype.find`.
- `text.dfy` (`Text`): the string operations the server relies on:
  `startsWith`, `endsWith`, ASCII `toLowerCase`, `replace` with a literal
  pattern, and `split` on one character.
- `numbers.dfy` (`Numbers`): `parseInt(s, 10)` and the text a number becomes
  in a template literal. `NaN` is `None`.
- `media.dfy` (`Media`): which file is the video, its MIME type, and the
  first-mebibyte priority range.
- `status.dfy` (`Status`): the five-way classification of `/status` and its
  `ready` flag.
- `video.dfy` (`Video`): the `/video` reply: 400, 503, 200, or 206 with
  `Content-Range` (RFC 7233 section 2.1 byte-range-spec and section 4.2
  Content-Range), read without any validation, exactly as the code does.
- `subtitles.dfy` (`Subtitles`): the source choice of `/subtitles` and
  `/subtitles.vtt`, and the WebVTT (W3C WebVTT section 4.1, the `WEBVTT`
  signature and NOTE blocks) and ASS placeholder documents.
- `latch.dfy` (`Latch`): the one-shot fallback latch (`hasEnded` and the
  response's `headersSent`) around each ffmpeg job. It is a pure transition
  function `Step` with lemmas over any event sequence, plus the class
  `FallbackLatch` whose handlers update the flags in place.
- `registry.dfy` (`Registry`): the `torrents` table as the class `Registry`.
  `GetOrAdd` models `getOrAddTorrent`. `CompleteMetadata` models the
  `client.add` ready callback. `Goodbye` models `/goodbye`, and one method
  models each route. The torrent engine is replaced by a handle number, an
  acquisition counter, a set of destroyed handles and a log of `select`
  calls.

Some facts about the code that the model keeps as they are:

- `ready` in `/status` needs only one byte of the video, while `/video`
  waits for a whole mebibyte before it streams anything.
- `/subtitles` (ASS) never looks for a sidecar file; only `/subtitles.vtt`
  does.
- No ffmpeg job has a timeout, and the only signal ever sent to ffmpeg is
  SIGTERM.
- A torrent without a playable file gets the same 503 as one whose video
  has not arrived yet.
- A `Range` header is never validated: a suffix range `bytes=-N` yields
  a `NaN` start and a `NaN` `Content-Length` (its end is `N`), and of a
  multi-range header only the first range is served.

## Model

| member | source | states |
|---|---|---|
| Base.FindFirst | app.js:38-40 | `None` exactly when no element matches; otherwise the index of the first match |
| Base.Find | app.js:38-40 | `None` exactly when no element matches; otherwise the element at the first matching index |
| Base.FindAtFirst | app.js:38-40 | whenever `i` is the first matching index, `find` returns the element at `i` |
| Text.Lower | app.js:486 | lower-casing keeps the length and lower-cases each ASCII letter in place |
| Text.LowerEndsWith | app.js:486 | a string that ends with a suffix still ends with it after both are lower-cased |
| Text.IndexOf | app.js:402 | the first occurrence of the pattern, or `None` when it occurs nowhere |
| Text.ReplaceFirst | app.js:402 | text without the pattern is unchanged; a leading `bytes=` is simply stripped |
| Text.Split | app.js:402 | at least one part, no part holds the separator, and joining the parts gives the input back |
| Text.SplitNoSeparator | app.js:402 | text without a separator splits into itself alone |
| Text.SplitAtFirst | app.js:402 | splitting peels off the text before the first separator |
| Numbers.TrimStart | app.js:403-404 | `parseInt` drops exactly the leading white space |
| Numbers.LeadingDigits | app.js:403-404 | the longest all-digit prefix |
| Numbers.Unsigned | app.js:403-404 | one leading `-` or `+` is dropped; text starting with anything else is unchanged |
| Numbers.ParseSigned | app.js:403-404 | after the white space, `NaN` exactly when no digit follows the optional sign |
| Numbers.ParseInt | app.js:403-404 | `NaN` exactly when no digit follows the white space and the optional sign |
| Numbers.ShowNat | app.js:407 | a number prints as a non-empty string of digits |
| Numbers.ShowNatValue | app.js:407 | the printed digits have the value of the number |
| Numbers.ParseShowInt | app.js:403-407 | parsing a printed integer gives it back |
| Numbers.ParseShowNumber | app.js:403-407 | parsing a printed number gives it back, and `NaN` stays `NaN` |
| Numbers.LeadingDigitsPrefix | app.js:403-404 | a run of digits followed by a non-digit (or nothing) is exactly the digit run `parseInt` reads |
| Numbers.ParseNatThenText | app.js:403-404 | a number followed by text that does not start with a digit parses as the number alone (`parseInt("99,200", 10)` is 99) |
| Media.IsMagnet | app.js:19 | a locator is accepted exactly when it starts with `magnet:`; the emptiness test is implied by the prefix test |
| Media.SelectVideo | app.js:38-40 | no video exactly when no file ends in `.mp4` or `.mkv`; otherwise the first such file |
| Media.SelectedMime | app.js:41-44 | Matroska exactly when the first video file ends in `.mkv`; MP4 exactly when it ends in `.mp4` or there is none |
| Media.MimeForSplit | app.js:42-45 | the stored type is Matroska exactly for an `.mkv` video and MP4 exactly otherwise, including no video |
| Media.FirstMiB | app.js:24-25 | the priority range starts at 0 and ends at the smaller of the file's last byte and the mebibyte's last byte |
| Status.Classify | app.js:66-77 | each of the five states holds exactly when its test passes and all earlier tests fail |
| Status.ClassifyByPriority | app.js:66-77 | the state is the one of the first rule that fires in the priority list |
| Status.StatusTextDistinct | app.js:66-77 | the five status strings are pairwise different |
| Status.DoneWithoutPeersIsNoPeers | app.js:68-74 | a complete torrent with no peers is reported as `no peers` |
| Video.ChunkSize | app.js:405 | `end - start + 1`, `NaN` as soon as either bound is |
| Video.Serve | app.js:366-411 | 503 exactly without a video or below a mebibyte; otherwise 200 exactly without a (non-empty) `Range` header, else 206; the type and length come from the session's video |
| Video.ServeBounds | app.js:402-411 | for a ready video and any non-empty header, the 206 reply carries the parsed bounds, numbers or `NaN`, and their chunk size, with no check against each other or the file |
| Video.RangeBoundsWithoutDash | app.js:402-404 | a range set without a dash has no second part, so its end is `L-1` |
| Video.StripUnit | app.js:402 | removing `bytes=` from the front leaves the range set |
| Video.RangeBoundsParts | app.js:402-404 | `bytes=A-B` with dash-free parts parses `A` as the start and `B` as the end, or `L-1` when `B` is empty |
| Video.RangeBoundsClosed | app.js:402-404 | `bytes=S-E` parses to `S` and `E` |
| Video.ServeClosedRange | app.js:402-409 | `bytes=S-E` gives 206 for exactly `S` to `E` with a size of `E-S+1`, with no bounds check |
| Video.ClosedRangeReply | app.js:402-410 | the request text `bytes=S-E` is answered 206 with headers `Content-Range: bytes S-E/L`, `Accept-Ranges: bytes`, `Content-Length: E-S+1` and the type |
| Video.RangeBoundsOpen | app.js:402-404 | `bytes=S-` parses to `S` and `L-1` |
| Video.ServeOpenRange | app.js:402-405 | `bytes=S-` is answered 206 from `S` to the last byte `L-1` |
| Video.OpenRangeReply | app.js:402-410 | the request text `bytes=S-` is answered 206 with headers `Content-Range: bytes S-(L-1)/L`, `Accept-Ranges: bytes`, the length of the chunk from `S` to `L-1` and the type |
| Video.OpenRangeLength | app.js:402-409 | the request text `bytes=S-` is answered with `Content-Length: L-S` |
| Video.RangeBoundsSuffix | app.js:402-404 | the suffix form `bytes=-N` parses to a `NaN` start and the end `N` |
| Video.SuffixRangeReply | app.js:402-410 | `bytes=-N` is answered 206 with `Content-Range: bytes NaN-N/L` and `Content-Length: NaN` |
| Video.RangeBoundsThreeParts | app.js:402-404 | with two or more dashes only the first two parts count: the start and the end |
| Video.RangeBoundsFirstOfMany | app.js:402-404 | the multi-range header `bytes=S-E,D-C` parses to `S` and `E`: the end stops at the comma |
| Video.ServeMultiRange | app.js:402-405 | a multi-range header is answered with the first range alone, size `E-S+1` |
| Video.ServeWhole | app.js:388-390 | no `Range` header gives 200 with the type and `Content-Length: L` |
| Video.SmallVideoNeverServed | app.js:379-384 | a video shorter than a mebibyte is always answered 503 |
| Video.ServedImpliesReady | app.js:82 | whatever is streamed is reported ready; one byte is ready but not streamable |
| Subtitles.VttNote | app.js:543-548 | every WebVTT placeholder starts with the `WEBVTT` signature |
| Subtitles.VttNoteText | app.js:516 | a parsed note is exactly what follows the `WEBVTT` NOTE header |
| Subtitles.VttNoteRoundTrip | app.js:516 | the reason is recovered from its WebVTT placeholder |
| Subtitles.AssDocument | app.js:433 | an ASS placeholder starts with `[Script Info]` and ends with its dialogue text |
| Subtitles.TitleLine | app.js:444 | the title is read up to the first line break after the `Title: ` prefix |
| Subtitles.AssTitleRoundTrip | app.js:444 | a one-line title is recovered from the `Title:` line of the script |
| Subtitles.AssFallback | app.js:440-447 | the fallback script starts with `[Script Info]`, ends with the reason, and has the reason as its title |
| Subtitles.NoSubtitlesAssTitle | app.js:433 | the non-Matroska script is titled `No Subtitles` and shows `No subtitles available` |
| Subtitles.ChooseVtt | app.js:485-548 | first `.vtt` sidecar if any; else first other sidecar; else the note for a non-Matroska video; else extraction (each case iff its condition) |
| Subtitles.ChooseAss | app.js:432-437 | the `No Subtitles` placeholder exactly for a non-Matroska video, extraction otherwise |
| Subtitles.OtherSubtitleIsNotVtt | app.js:486-492 | no file counts both as a `.vtt` sidecar and as one of the other subtitle formats |
| Subtitles.VttSidecarWins | app.js:486 | a `.VTT` sidecar in upper case is still served |
| Latch.FallbackBody | app.js:444 | the ASS fallback carries the reason; the WebVTT fallback is the note with the reason |
| Latch.Step | app.js:440-465 | one event appends at most one placeholder, removes none, never lowers the kill count and keeps the latch consistent |
| Latch.Run | app.js:440-465 | over a sequence of events, what was already sent stays sent, as a prefix |
| Latch.AtMostOneBody | app.js:440-447 | over any sequence of events, at most one placeholder is sent |
| Latch.SilentOnceEnded | app.js:459-465 | once the latch is closed (`hasEnded`), nothing more is sent and it stays closed |
| Latch.EndSilences | app.js:459-461 | after ffmpeg's `end` event, whatever follows, no placeholder is sent |
| Latch.SilentOnceHeadersSent | app.js:445-447 | once headers are out, no placeholder is sent |
| Latch.HeadersSentSilences | app.js:445-447 | after ffmpeg's output reaches the client, whatever follows, no placeholder is sent |
| Latch.ErrorFirstSends | app.js:456-458 | an error on an open latch sends its placeholder, and nothing follows it |
| Latch.FfmpegErrorSendsReason | app.js:455-458 | an ffmpeg error on a started job sends exactly one placeholder with that job's reason: `No subtitles found in video` for extraction, `Subtitle conversion error` for conversion |
| Latch.CloseSilencesAndKills | app.js:462-465 | a client close sends no placeholder and sends SIGTERM |
| Latch.KillsNeverDecrease | app.js:462-465 | kills only accumulate |
| Latch.BodiesComeFromErrors | app.js:456-458 | every placeholder sent is the one for some error's reason |
| Latch.FallbackLatch.constructor | app.js:466-469 | a job whose command could not be built sends the start-failure placeholder at once |
| Latch.FallbackLatch.OnError | app.js:440-448 | the `error` handler takes the latch one `Error` step and keeps at most one placeholder |
| Latch.FallbackLatch.OnEnd | app.js:459-461 | the `end` handler closes the latch |
| Latch.FallbackLatch.OnClose | app.js:462-465 | the `close` handler closes the latch and counts one SIGTERM |
| Latch.FallbackLatch.OnHeadersSent | app.js:445 | output reaching the client marks the headers as sent |
| Registry.NewEntry | app.js:31-36 | a new session has no video, MP4 as its type, and the access time |
| Registry.Access | app.js:18-36 | a non-magnet changes nothing; a known magnet keeps its entry and only refreshes `lastAccess`; an unknown one gets a new entry; other keys are untouched |
| Registry.Acquired | app.js:31-37 | one more acquisition exactly for a magnet without an entry |
| Registry.AccessHints | app.js:22-26 | one `select` of the first mebibyte exactly when a known session has a video |
| Registry.WithMetadata | app.js:37-52 | after metadata the session keeps its torrent, now with the files; the video is the first video file and the type follows it; the time is refreshed; the session is well formed |
| Registry.RepeatedAccessSameTorrent | app.js:20-30 | a second lookup returns the same torrent, refreshes the time, and acquires nothing |
| Registry.TeardownThenAccessIsFresh | app.js:583-594 | after `/goodbye` the next lookup builds a fresh session without a video, with a new acquisition |
| Registry.MetadataMime | app.js:41-44 | after metadata the type is Matroska exactly for a `.mkv` video |
| Registry.Registry.constructor | app.js:16 | the table starts empty |
| Registry.Registry.GetOrAdd | app.js:18-55 | returns `None` for a non-magnet; otherwise the session, moving the table to `Access`, the counter to `Acquired` and logging `AccessHints`; every key stays a magnet with a well-formed session owning a live torrent of its own |
| Registry.Registry.CompleteMetadata | app.js:37-53 | the ready callback stores the files, the video and its type, refreshes the time and selects the first mebibyte; nothing happens if the session is gone |
| Registry.Registry.Goodbye | app.js:583-594 | an unknown or missing magnet: `No such torrent`, nothing changes; a known one: its torrent is destroyed for the first time and its entry deleted |
| Registry.Registry.StatusRoute | app.js:58-82 | 400 without a locator and nothing changes; otherwise the lookup's table, acquisitions and `select` log; 404 for a non-magnet, else the classification and the `ready` flag; nothing is destroyed |
| Registry.Registry.VideoRoute | app.js:366-384 | 400 without a locator and nothing changes; otherwise the lookup's table, acquisitions and `select` log, and the `Serve` decision for the session's video (503 for a non-magnet); nothing is destroyed |
| Registry.Registry.SubtitlesRoute | app.js:423-437 | 400 without a locator and nothing changes; otherwise the lookup's effects, 503 until there is a video, then the ASS plan; nothing is destroyed |
| Registry.Registry.SubtitlesVttRoute | app.js:473-494 | 400 without a locator and nothing changes; otherwise the lookup's effects, 503 until there is a video, then the WebVTT plan over the torrent's files; nothing is destroyed |

## Left out

- The torrent engine (`client.add`, peer traffic, piece download, `file.select`, `createReadStream`, `torrent.destroy`): a torrent is a handle number and its file list. How much has arrived is an argument. `select` and `destroy` are recorded in the `selections` log and the `destroyed` set.
- ffmpeg, process signals and piping into the response: only the `error`, `end` and `close` events and the moment output first reaches the client are kept, as latch events. A SIGTERM is a counter.
- Streaming itself: the stream-error 500 replies and backpressure of `/video` and of the `.vtt` sidecar (app.js:392-399, 412-419, 497-505) are timing behaviour, not a decision.
- Express plumbing: CORS, static files, `index.html`, `app.listen`, and the `/player` page with its browser script and polling timers (app.js:97-332).
- The demo torrent added at start-up and its module-level `videoFile`/`videoMime` (app.js:342-363): nothing reads them. Their selection is the same `SelectVideo`/`MimeFor`.
- `Date.now()` is the `now` parameter. `process.env.PORT` (app.js:451, 561, 601-602) chooses the port `app.listen` binds and that ffmpeg's input URL points back to. Both are I/O and are dropped.
- The optional `cb` parameter of `getOrAddTorrent`: no caller passes one.
- The remaining `/status` fields (`infoHash`, `name`, `progress`, speeds, …) are copied from the torrent, with `error` sent as its message (app.js:91), and are not modelled.
- The default `message` of each fallback closure is never used, because every call passes a reason.
- Registry.Registry.GetOrAdd: returns the entry as a value. In the source the caller gets the live object, which later updates (metadata arrival) are visible through.
- Registry.Registry.CompleteMetadata: when the session was deleted before its metadata arrived, the source's callback fails on the missing entry. The model treats this as doing nothing.
- Registry.Registry.Goodbye: only keys that are magnets are stored, so keys inherited by plain objects (such as `constructor`) are treated as absent. In the source such a key passes the lookup and the reply is `Torrent destroyed`, although nothing is destroyed.
- Latch.FallbackLatch.constructor: a failure inside the `try` block is modelled as happening before the `close` handler is installed. A failure in `pipe`, after the handler exists, is not modelled.
- Text.Lower: only ASCII letters are lower-cased. `toLowerCase` also maps letters of other scripts, which is not modelled.
- Numbers.ShowNat: integers are exact. JavaScript numbers are doubles, so a value beyond 2^53, or a range header with more digits than that, would print in exponent form or lose digits.
- Query parameters given more than once (arrays in Express) are not modelled. A locator is a string or absent.

=== FILE: base.dfy ===
/** Shared building blocks: an optional value (JavaScript's `null`/`undefined`
    or `NaN`) and the first-match search that `Array.prototype.find` performs. */
module Base {

  datatype Option<+T> = None | Some(value: T)

  /** `i` is the index of the first element of `s` that satisfies `p`. */
  ghost predicate IsFirst<T>(s: seq<T>, p: T -> bool, i: int)
  {
    0 <= i < |s| && p(s[i]) && forall j :: 0 <= j < i ==> !p(s[j])
  }

  /** Index of the first element satisfying `p`, as `files.find(p)` visits
      the list from the front; `None` when no element matches. */
  function FindFirst<T>(s: seq<T>, p: T -> bool): (r: Option<nat>)
    ensures r.None? <==> forall i :: 0 <= i < |s| ==> !p(s[i])
    ensures r.Some? ==> IsFirst(s, p, r.value)
  {
    if |s| == 0 then None
    else if p(s[0]) then Some(0)
    else match FindFirst(s[1..], p)
      case None => None
      case Some(k) => Some(k + 1)
  }

  /** The element `find` returns: the first match, or nothing. */
  function Find<T>(s: seq<T>, p: T -> bool): (r: Option<T>)
    ensures r.None? <==> forall i :: 0 <= i < |s| ==> !p(s[i])
    ensures r.Some? ==> exists i :: IsFirst(s, p, i) && s[i] == r.value
  {
    match FindFirst(s, p)
    case None => None
    case Some(k) => Some(s[k])
  }

  /** At most one index is the first match, so `Find` is determined by it. */
  lemma FirstIsUnique<T>(s: seq<T>, p: T -> bool, i: int, j: int)
    requires IsFirst(s, p, i) && IsFirst(s, p, j)
    ensures i == j
  {
  }

  /** Whatever `Find` returns is the element at the first matching index. */
  lemma FindAtFirst<T>(s: seq<T>, p: T -> bool, i: int)
    requires IsFirst(s, p, i)
    ensures Find(s, p) == Some(s[i])
  {
    var r := FindFirst(s, p);
    assert r.Some?;
    FirstIsUnique(s, p, i, r.value);
  }
}

=== FILE: latch.dfy ===
/** The one-shot fallback latch around each ffmpeg job of `/subtitles` and
    `/subtitles.vtt`: the `hasEnded` flag, the response's `headersSent`,
    and the events that drive them. */
module Latch {
  import opened Base
  import opened Text
  import opened Subtitles

  /** The three ffmpeg jobs: extraction of the first subtitle track as ASS
      (`/subtitles`), conversion of a subtitle sidecar to WebVTT, and
      extraction of the first track as WebVTT (both `/subtitles.vtt`). */
  datatype Job = AssExtraction | VttConversion | VttExtraction

  /** The reason sent when ffmpeg reports an error. */
  function ErrorMessage(job: Job): string
  {
    match job
    case AssExtraction => "No subtitles found in video"
    case VttConversion => "Subtitle conversion error"
    case VttExtraction => "No subtitles found in video"
  }

  /** The reason sent when the ffmpeg command cannot even be built. */
  function StartFailureMessage(job: Job): string
  {
    match job
    case AssExtraction => "Failed to start subtitle extraction"
    case VttConversion => "Failed to start subtitle conversion"
    case VttExtraction => "Failed to start subtitle extraction"
  }

  /** The placeholder a job falls back to, in the job's output format. */
  function FallbackBody(job: Job, message: string): (body: string)
    ensures job.AssExtraction? ==> StartsWith(body, "[Script Info]") && EndsWith(body, message)
    ensures !job.AssExtraction? ==> VttNoteText(body) == Some(message)
  {
    if job.AssExtraction? then AssFallback(message)
    else
      VttNoteRoundTrip(message);
      VttNote(message)
  }

  /** What can happen to a running job: ffmpeg fails with a reason (the
      command's `error` event, or the `catch` around building it), ffmpeg
      finishes (`end`), the client goes away (`close` on the request), or
      ffmpeg's own output reaches the client first. */
  datatype Event = Error(message: string) | End | ClientClose | HeadersSent

  /** `listening`: the `close` handler is installed, which happens only
      once the ffmpeg command exists; `kills`: SIGTERMs sent to ffmpeg;
      `bodies`: placeholder documents sent. */
  datatype LatchState = LatchState(hasEnded: bool, headersSent: bool, listening: bool, kills: nat, bodies: seq<string>)

  /** A job whose ffmpeg command was built and wired up. */
  const Started: LatchState := LatchState(false, false, true, 0, [])

  /** Before anything is wired up. */
  const Unwired: LatchState := LatchState(false, false, false, 0, [])

  /** At most one placeholder, and only once the latch is closed and the
      response has begun. */
  ghost predicate Consistent(st: LatchState)
  {
    |st.bodies| <= 1 && (st.bodies != [] ==> st.hasEnded && st.headersSent)
  }

  /** One event: placeholders are only ever appended, at most one at a
      time, kills only grow, and consistency is kept. */
  function Step(job: Job, st: LatchState, e: Event): (next: LatchState)
    ensures st.bodies <= next.bodies && |next.bodies| <= |st.bodies| + 1
    ensures next.kills >= st.kills
    ensures Consistent(st) ==> Consistent(next)
  {
    match e
    case Error(message) =>
      if st.hasEnded then st
      else if st.headersSent then st.(hasEnded := true)
      else st.(hasEnded := true, headersSent := true, bodies := st.bodies + [FallbackBody(job, message)])
    case End => st.(hasEnded := true)
    case ClientClose =>
      if st.listening then st.(hasEnded := true, kills := st.kills + 1) else st
    case HeadersSent => st.(headersSent := true)
  }

  /** A sequence of events, in order: what was sent before stays sent. */
  function Run(job: Job, st: LatchState, events: seq<Event>): (last: LatchState)
    ensures st.bodies <= last.bodies
    decreases |events|
  {
    if events == [] then st else Run(job, Step(job, st, events[0]), events[1..])
  }

  /** Whatever happens, and in whatever order, at most one placeholder is
      sent per request. */
  lemma {:induction false} AtMostOneBody(job: Job, st: LatchState, events: seq<Event>)
    requires Consistent(st)
    ensures Consistent(Run(job, st, events))
    ensures |Run(job, st, events).bodies| <= 1
    decreases |events|
  {
    if events != [] {
      AtMostOneBody(job, Step(job, st, events[0]), events[1..]);
    }
  }

  /** Once the latch is closed, whether by `end`, by the client going away
      or by a placeholder, nothing more is sent. */
  lemma {:induction false} SilentOnceEnded(job: Job, st: LatchState, events: seq<Event>)
    requires st.hasEnded
    ensures Run(job, st, events).bodies == st.bodies
    ensures Run(job, st, events).hasEnded
    decreases |events|
  {
    if events != [] {
      SilentOnceEnded(job, Step(job, st, events[0]), events[1..]);
    }
  }

  /** ffmpeg's `end` event silences the latch: whatever follows it, no
      placeholder is sent. */
  lemma EndSilences(job: Job, st: LatchState, rest: seq<Event>)
    ensures Run(job, st, [End] + rest).bodies == st.bodies
  {
    assert ([End] + rest)[1..] == rest;
    SilentOnceEnded(job, Step(job, st, End), rest);
  }

  /** Once ffmpeg's output has reached the client, whatever follows, no
      placeholder is sent. */
  lemma HeadersSentSilences(job: Job, st: LatchState, rest: seq<Event>)
    ensures Run(job, st, [HeadersSent] + rest).bodies == st.bodies
  {
    assert ([HeadersSent] + rest)[1..] == rest;
    SilentOnceHeadersSent(job, Step(job, st, HeadersSent), rest);
  }

  /** Once the response has headers, no placeholder is sent. */
  lemma {:induction false} SilentOnceHeadersSent(job: Job, st: LatchState, events: seq<Event>)
    requires st.headersSent
    ensures Run(job, st, events).bodies == st.bodies
    decreases |events|
  {
    if events != [] {
      SilentOnceHeadersSent(job, Step(job, st, events[0]), events[1..]);
    }
  }

  /** An error that comes while the latch is open and nothing has been
      written sends exactly its own placeholder, whatever follows. */
  lemma ErrorFirstSends(job: Job, st: LatchState, message: string, rest: seq<Event>)
    requires !st.hasEnded && !st.headersSent
    ensures Run(job, st, [Error(message)] + rest).bodies == st.bodies + [FallbackBody(job, message)]
  {
    var next := Step(job, st, Error(message));
    assert ([Error(message)] + rest)[1..] == rest;
    SilentOnceEnded(job, next, rest);
  }

  /** ffmpeg failing on a job that started and has written nothing sends
      the job's own reason: for the ASS job a script whose text is the
      reason, for the WebVTT jobs a note holding it. */
  lemma FfmpegErrorSendsReason(job: Job, rest: seq<Event>)
    ensures var bodies := Run(job, Started, [Error(ErrorMessage(job))] + rest).bodies;
      && bodies == [FallbackBody(job, ErrorMessage(job))]
      && (job.AssExtraction? ==> EndsWith(bodies[0], "No subtitles found in video"))
      && (job.VttConversion? ==> VttNoteText(bodies[0]) == Some("Subtitle conversion error"))
      && (job.VttExtraction? ==> VttNoteText(bodies[0]) == Some("No subtitles found in video"))
  {
    ErrorFirstSends(job, Started, ErrorMessage(job), rest);
  }

  /** A client that goes away while ffmpeg runs gets no placeholder, and
      ffmpeg is sent SIGTERM. */
  lemma CloseSilencesAndKills(job: Job, st: LatchState, rest: seq<Event>)
    requires st.listening
    ensures Run(job, st, [ClientClose] + rest).bodies == st.bodies
    ensures Run(job, st, [ClientClose] + rest).kills >= st.kills + 1
  {
    var next := Step(job, st, ClientClose);
    assert ([ClientClose] + rest)[1..] == rest;
    SilentOnceEnded(job, next, rest);
    KillsNeverDecrease(job, next, rest);
  }

  lemma {:induction false} KillsNeverDecrease(job: Job, st: LatchState, events: seq<Event>)
    ensures Run(job, st, events).kills >= st.kills
    decreases |events|
  {
    if events != [] {
      KillsNeverDecrease(job, Step(job, st, events[0]), events[1..]);
    }
  }

  /** Every placeholder that is sent is the one for the reason of some
      error event. */
  lemma {:induction false} BodiesComeFromErrors(job: Job, st: LatchState, events: seq<Event>, b: string)
    requires b in Run(job, st, events).bodies
    ensures b in st.bodies || exists m :: Error(m) in events && b == FallbackBody(job, m)
    decreases |events|
  {
    if events != [] {
      var next := Step(job, st, events[0]);
      BodiesComeFromErrors(job, next, events[1..], b);
      if b !in st.bodies && b in next.bodies {
        assert Error(events[0].message) in events;
      } else if b !in next.bodies {
        var m :| Error(m) in events[1..] && b == FallbackBody(job, m);
        assert Error(m) in events;
      }
    }
  }

  /** The latch of one request, updated in place by the event handlers. */
  class FallbackLatch {
    const job: Job
    var hasEnded: bool
    var headersSent: bool
    var listening: bool
    var kills: nat
    var bodies: seq<string>

    function State(): LatchState
      reads this
    {
      LatchState(hasEnded, headersSent, listening, kills, bodies)
    }

    ghost predicate Valid()
      reads this
    {
      Consistent(State())
    }

    /** Sets up the latch for `job`. When building the ffmpeg command
        failed (`started` is false), the `catch` sends the start-failure
        placeholder at once and no `close` handler is installed. */
    constructor (job: Job, started: bool)
      ensures this.job == job && Valid()
      ensures State() == if started then Started else Step(job, Unwired, Error(StartFailureMessage(job)))
    {
      var st := if started then Started else Step(job, Unwired, Error(StartFailureMessage(job)));
      this.job := job;
      hasEnded, headersSent, listening, kills, bodies := st.hasEnded, st.headersSent, st.listening, st.kills, st.bodies;
    }

    /** `sendFallback(message)`: closes the latch; sends the placeholder
        unless the latch was already closed or headers were out. */
    method OnError(message: string)
      requires Valid()
      modifies this
      ensures Valid()
      ensures State() == Step(job, old(State()), Error(message))
    {
      if hasEnded {
        return;
      }
      hasEnded := true;
      if !headersSent {
        bodies := bodies + [FallbackBody(job, message)];
        headersSent := true;
      }
    }

    /** ffmpeg's `end` event. */
    method OnEnd()
      requires Valid()
      modifies this
      ensures Valid()
      ensures State() == Step(job, old(State()), End)
    {
      hasEnded := true;
    }

    /** The request's `close` event: close the latch and send SIGTERM. */
    method OnClose()
      requires Valid()
      modifies this
      ensures Valid()
      ensures State() == Step(job, old(State()), ClientClose)
    {
      if listening {
        hasEnded := true;
        kills := kills + 1;
      }
    }

    /** ffmpeg's output began flowing to the client. */
    method OnHeadersSent()
      requires Valid()
      modifies this
      ensures Valid()
      ensures State() == Step(job, old(State()), HeadersSent)
    {
      headersSent := true;
    }
  }
}

=== FILE: media.dfy ===
/** Which file of a torrent is the video, what MIME type it is served as,
    and the download-priority range the server asks for on its behalf. */
module Media {
  import opened Base
  import opened Text

  /** One mebibyte: the head of the video that is fetched first and that
      must be present before `/video` streams anything. */
  const MiB: int := 1048576

  /** A file listed in a torrent's metadata. How much of it has arrived
      changes as the download runs and is passed separately where needed. */
  datatype TorrentFile = TorrentFile(name: string, length: int)

  /** `file.select(start, end, false)`: ask the torrent engine to fetch the
      inclusive byte range `start..end` of `file` first. */
  datatype PriorityRange = PriorityRange(file: TorrentFile, start: int, end: int)

  /** The locators the registry accepts: non-empty and starting `magnet:`.
      The emptiness test adds nothing, since the prefix is not empty. */
  predicate IsMagnet(locator: string)
    ensures IsMagnet(locator) <==> StartsWith(locator, "magnet:")
  {
    locator != "" && StartsWith(locator, "magnet:")
  }

  predicate IsVideoFile(f: TorrentFile)
  {
    EndsWith(f.name, ".mp4") || EndsWith(f.name, ".mkv")
  }

  /** Matroska container, recognised by its case-sensitive extension. */
  predicate IsMkv(f: TorrentFile)
  {
    EndsWith(f.name, ".mkv")
  }

  /** The torrent's video: the first file named `*.mp4` or `*.mkv`. */
  function SelectVideo(files: seq<TorrentFile>): (r: Option<TorrentFile>)
    ensures r.None? <==> forall i :: 0 <= i < |files| ==> !IsVideoFile(files[i])
    ensures r.Some? ==> exists i :: IsFirst(files, IsVideoFile, i) && files[i] == r.value
  {
    Find(files, IsVideoFile)
  }

  /** The MIME type stored next to the video: Matroska for an `.mkv` file,
      MP4 for anything else, including no video at all. */
  function MimeFor(video: Option<TorrentFile>): string
  {
    if video.Some? && IsMkv(video.value) then "video/x-matroska" else "video/mp4"
  }

  /** The two MIME types split the videos between them: Matroska exactly
      for an `.mkv` video, MP4 exactly for everything else. */
  lemma MimeForSplit(video: Option<TorrentFile>)
    ensures MimeFor(video) == "video/x-matroska" <==> video.Some? && IsMkv(video.value)
    ensures MimeFor(video) == "video/mp4" <==> video.None? || !IsMkv(video.value)
  {
  }

  /** What metadata arrival stores: the MIME type is Matroska exactly when
      the first video-named file ends in `.mkv`, and MP4 exactly when that
      file ends in `.mp4` or there is no such file. */
  lemma SelectedMime(files: seq<TorrentFile>)
    ensures MimeFor(SelectVideo(files)) == "video/x-matroska" <==>
      exists i :: IsFirst(files, IsVideoFile, i) && EndsWith(files[i].name, ".mkv")
    ensures MimeFor(SelectVideo(files)) == "video/mp4" <==>
      (forall i :: 0 <= i < |files| ==> !IsVideoFile(files[i]))
      || exists i :: IsFirst(files, IsVideoFile, i) && EndsWith(files[i].name, ".mp4")
  {
    var v := SelectVideo(files);
    if v.Some? {
      var k :| IsFirst(files, IsVideoFile, k) && files[k] == v.value;
      forall i | IsFirst(files, IsVideoFile, i) ensures i == k {
        FirstIsUnique(files, IsVideoFile, i, k);
      }
      EndsWithExclusive(v.value.name, ".mp4", ".mkv");
    }
  }

  /** The priority hint for a video: from byte 0 up to the end of the file
      or the end of the first mebibyte, whichever comes first. */
  function FirstMiB(f: TorrentFile): (r: PriorityRange)
    ensures r.file == f && r.start == 0
    ensures r.end <= f.length - 1 && r.end <= MiB - 1
    ensures r.end == f.length - 1 || r.end == MiB - 1
  {
    var end := if f.length - 1 < MiB - 1 then f.length - 1 else MiB - 1;
    PriorityRange(f, 0, end)
  }
}

=== FILE: numbers.dfy ===
/** JavaScript's `parseInt(text, 10)` and the decimal text a number becomes
    inside a template literal. `NaN` is `None`; numbers are exact integers. */
module Numbers {
  import opened Base

  predicate IsDigit(c: char)
  {
    '0' <= c <= '9'
  }

  /** The characters `parseInt` skips before the number: the ECMAScript
      white space (including every space separator) and line terminators. */
  predicate IsSpace(c: char)
  {
    c == '\t' || c == '\n' || c == '\U{000B}' || c == '\U{000C}' || c == '\r' || c == ' '
    || c == '\U{00A0}' || c == '\U{1680}' || ('\U{2000}' <= c <= '\U{200A}')
    || c == '\U{2028}' || c == '\U{2029}' || c == '\U{202F}' || c == '\U{205F}'
    || c == '\U{3000}' || c == '\U{FEFF}'
  }

  function TrimStart(s: string): (r: string)
    ensures |r| <= |s| && r == s[|s| - |r|..]
    ensures r == [] || !IsSpace(r[0])
    ensures forall i :: 0 <= i < |s| - |r| ==> IsSpace(s[i])
  {
    if |s| > 0 && IsSpace(s[0]) then TrimStart(s[1..]) else s
  }

  /** The longest prefix of `s` made of decimal digits. */
  function LeadingDigits(s: string): (r: string)
    ensures |r| <= |s| && r == s[..|r|]
    ensures forall i :: 0 <= i < |r| ==> IsDigit(r[i])
    ensures |r| == |s| || !IsDigit(s[|r|])
  {
    if |s| > 0 && IsDigit(s[0]) then [s[0]] + LeadingDigits(s[1..]) else []
  }

  function DigitValue(c: char): nat
    requires IsDigit(c)
  {
    c as int - '0' as int
  }

  function DigitsValue(s: string): nat
    requires forall i :: 0 <= i < |s| ==> IsDigit(s[i])
  {
    if s == [] then 0
    else
      assert IsDigit(s[|s| - 1]);
      DigitsValue(s[..|s| - 1]) * 10 + DigitValue(s[|s| - 1])
  }

  /** `parseInt(s, 10)`: skip leading white space, take one optional sign,
      then the longest run of digits; no digits at all is `NaN`. */
  function ParseInt(s: string): (r: Option<int>)
    ensures r.None? <==> var body := Unsigned(TrimStart(s)); body == [] || !IsDigit(body[0])
  {
    ParseSigned(TrimStart(s))
  }

  /** The text after one optional leading sign. */
  function Unsigned(t: string): (r: string)
    ensures |t| > 0 && (t[0] == '-' || t[0] == '+') ==> r == t[1..]
    ensures !(|t| > 0 && (t[0] == '-' || t[0] == '+')) ==> r == t
  {
    if |t| > 0 && (t[0] == '-' || t[0] == '+') then t[1..] else t
  }

  /** `parseInt` once the white space is gone: the sign, then the digits. */
  function ParseSigned(t: string): (r: Option<int>)
    ensures r.None? <==> Unsigned(t) == [] || !IsDigit(Unsigned(t)[0])
  {
    var digits := LeadingDigits(Unsigned(t));
    if digits == [] then None
    else
      var magnitude: int := DigitsValue(digits);
      Some(if |t| > 0 && t[0] == '-' then -magnitude else magnitude)
  }

  function DigitChar(d: nat): char
    requires d < 10
  {
    ('0' as int + d) as char
  }

  /** Decimal digits of `n`, without leading zeros. */
  function ShowNat(n: nat): (r: string)
    ensures |r| >= 1 && forall i :: 0 <= i < |r| ==> IsDigit(r[i])
  {
    if n < 10 then [DigitChar(n)] else ShowNat(n / 10) + [DigitChar(n % 10)]
  }

  /** `${n}` for an integer-valued number. */
  function ShowInt(n: int): string
  {
    if n < 0 then "-" + ShowNat(-n) else ShowNat(n)
  }

  /** `${x}` for a number that may be `NaN`. */
  function ShowNumber(x: Option<int>): string
  {
    match x
    case None => "NaN"
    case Some(n) => ShowInt(n)
  }

  lemma {:induction false} ShowNatValue(n: nat)
    ensures DigitsValue(ShowNat(n)) == n
  {
    var s := ShowNat(n);
    if n >= 10 {
      ShowNatValue(n / 10);
      assert s[..|s| - 1] == ShowNat(n / 10);
    }
  }

  lemma LeadingDigitsAll(s: string)
    requires forall i :: 0 <= i < |s| ==> IsDigit(s[i])
    ensures LeadingDigits(s) == s
  {
  }

  /** A printed integer starts with a digit or a minus sign, so `parseInt`
      skips nothing in front of it. */
  lemma TrimShowInt(n: int)
    ensures TrimStart(ShowInt(n)) == ShowInt(n)
  {
    var s := ShowInt(n);
    if n < 0 {
      assert s[0] == '-';
    } else {
      assert IsDigit(s[0]);
    }
  }

  lemma ParseShowNat(n: nat)
    ensures ParseSigned(ShowNat(n)) == Some(n)
  {
    var s := ShowNat(n);
    assert IsDigit(s[0]);
    assert Unsigned(s) == s;
    LeadingDigitsAll(s);
    ShowNatValue(n);
  }

  lemma ParseShowNegative(n: int)
    requires n < 0
    ensures ParseSigned("-" + ShowNat(-n)) == Some(n)
  {
    var digits := ShowNat(-n);
    var s := "-" + digits;
    assert Unsigned(s) == digits;
    LeadingDigitsAll(digits);
    ShowNatValue(-n);
  }

  /** Formatting a number and parsing it back gives the same number:
      `parseInt(`${n}`, 10) === n`. */
  lemma ParseShowInt(n: int)
    ensures ParseInt(ShowInt(n)) == Some(n)
  {
    var s := ShowInt(n);
    if n < 0 {
      ParseShowNegative(n);
      assert s == "-" + ShowNat(-n);
    } else {
      ParseShowNat(n);
      assert s == ShowNat(n);
    }
    assert ParseSigned(s) == Some(n);
    TrimShowInt(n);
    assert ParseInt(s) == ParseSigned(TrimStart(s));
  }

  /** The digits of `d` are the whole run of digits of `d + rest` when
      `rest` does not go on with a digit. */
  lemma LeadingDigitsPrefix(d: string, rest: string)
    requires forall i :: 0 <= i < |d| ==> IsDigit(d[i])
    requires rest == [] || !IsDigit(rest[0])
    ensures LeadingDigits(d + rest) == d
  {
    var s := d + rest;
    var r := LeadingDigits(s);
    assert r == s[..|d|] == d;
  }

  /** `parseInt` stops at the first character that is not a digit: a
      number followed by such text reads as the number alone, as in
      `parseInt("99,200", 10) === 99`. */
  lemma ParseNatThenText(n: nat, rest: string)
    requires rest == [] || !IsDigit(rest[0])
    ensures ParseInt(ShowNat(n) + rest) == Some(n)
  {
    var d := ShowNat(n);
    var s := d + rest;
    assert IsDigit(s[0]) && !IsSpace(s[0]);
    assert TrimStart(s) == s;
    assert Unsigned(s) == s;
    LeadingDigitsPrefix(d, rest);
    ShowNatValue(n);
  }

  /** `ShowNumber` keeps `NaN` apart from every number. */
  lemma ParseShowNumber(x: Option<int>)
    ensures ParseInt(ShowNumber(x)) == x
  {
    if x.Some? {
      ParseShowInt(x.value);
    } else {
      assert TrimStart("NaN") == "NaN";
    }
  }
}

=== FILE: registry.dfy ===
/** The session registry (`torrents`, magnet -> entry) and the request
    handlers that look sessions up in it: `/status`, `/video`, `/subtitles`,
    `/subtitles.vtt` and `/goodbye`. The torrent engine is abstracted into
    plain values: a torrent is a handle number plus the file list its
    metadata brings, and "how much has arrived" is an argument. */
module Registry {
  import opened Base
  import opened Media
  import opened Status
  import opened Video
  import opened Subtitles

  /** The torrent object `client.add` returns: `id` numbers the acquisition
      that made it, `files` is `None` until its metadata has arrived. */
  datatype Torrent = Torrent(id: nat, files: Option<seq<TorrentFile>>)

  /** One session: `{torrent, videoFile, videoMime, lastAccess}`. */
  datatype Entry = Entry(torrent: Torrent, videoFile: Option<TorrentFile>, videoMime: string, lastAccess: int)

  /** The entry created on first access: no video yet, MP4 by default. */
  function NewEntry(id: nat, now: int): (e: Entry)
    ensures e.torrent == Torrent(id, None) && e.videoFile.None? && e.videoMime == "video/mp4" && e.lastAccess == now
  {
    Entry(Torrent(id, None), None, "video/mp4", now)
  }

  /** The video and MIME type always agree with the metadata: before it
      arrives there is no video and the type is MP4; afterwards the video is
      the first `.mp4`/`.mkv` file and the type follows its extension. */
  ghost predicate WellFormed(e: Entry)
  {
    && e.videoFile == (if e.torrent.files.Some? then SelectVideo(e.torrent.files.value) else None)
    && e.videoMime == MimeFor(e.videoFile)
  }

  /** The table after `getOrAddTorrent(magnet)` at time `now`, when the next
      acquisition would be numbered `next`: non-magnets change nothing, a
      known magnet only has its entry's `lastAccess` refreshed, an unknown
      one gets a new entry; no other key is touched. */
  function Access(entries: map<string, Entry>, next: nat, magnet: string, now: int): (after: map<string, Entry>)
    ensures !IsMagnet(magnet) ==> after == entries
    ensures IsMagnet(magnet) ==> after.Keys == entries.Keys + {magnet}
    ensures IsMagnet(magnet) && magnet in entries ==>
      after[magnet].torrent == entries[magnet].torrent
      && after[magnet].videoFile == entries[magnet].videoFile
      && after[magnet].videoMime == entries[magnet].videoMime
      && after[magnet].lastAccess == now
    ensures IsMagnet(magnet) && magnet !in entries ==> after[magnet] == NewEntry(next, now)
    ensures forall k :: k in entries && k != magnet ==> after[k] == entries[k]
  {
    if !IsMagnet(magnet) then entries
    else if magnet in entries then entries[magnet := entries[magnet].(lastAccess := now)]
    else entries[magnet := NewEntry(next, now)]
  }

  /** Acquisitions after `getOrAddTorrent(magnet)`: one more only for a
      magnet that had no entry. */
  function Acquired(entries: map<string, Entry>, next: nat, magnet: string): (after: nat)
    ensures after == next || after == next + 1
    ensures after == next + 1 <==> IsMagnet(magnet) && magnet !in entries
  {
    if IsMagnet(magnet) && magnet !in entries then next + 1 else next
  }

  /** The `select` call `getOrAddTorrent` makes: the first mebibyte of a
      known session's video, if it has one. */
  function AccessHints(entries: map<string, Entry>, magnet: string): (hints: seq<PriorityRange>)
    ensures |hints| <= 1
    ensures |hints| == 1 <==> IsMagnet(magnet) && magnet in entries && entries[magnet].videoFile.Some?
    ensures |hints| == 1 ==> hints[0] == FirstMiB(entries[magnet].videoFile.value)
  {
    if IsMagnet(magnet) && magnet in entries && entries[magnet].videoFile.Some?
    then [FirstMiB(entries[magnet].videoFile.value)]
    else []
  }

  /** A session after its torrent's metadata arrived with `files`. */
  function WithMetadata(e: Entry, files: seq<TorrentFile>, now: int): (after: Entry)
    ensures WellFormed(after)
    ensures after.torrent == e.torrent.(files := Some(files))
    ensures after.videoFile == SelectVideo(files) && after.videoMime == MimeFor(SelectVideo(files))
    ensures after.lastAccess == now
  {
    var video := SelectVideo(files);
    Entry(e.torrent.(files := Some(files)), video, MimeFor(video), now)
  }

  /** Looking a magnet up again returns the same torrent: the second access
      finds the entry the first one made or refreshed, and acquires
      nothing. */
  lemma RepeatedAccessSameTorrent(entries: map<string, Entry>, next: nat, magnet: string, t1: int, t2: int)
    requires IsMagnet(magnet)
    ensures var once := Access(entries, next, magnet, t1);
      var next' := Acquired(entries, next, magnet);
      && Access(once, next', magnet, t2)[magnet].torrent == once[magnet].torrent
      && Access(once, next', magnet, t2)[magnet].lastAccess == t2
      && Acquired(once, next', magnet) == next'
  {
  }

  /** After `/goodbye`, the next lookup of the same magnet builds a fresh
      session with a new torrent and no video. */
  lemma TeardownThenAccessIsFresh(entries: map<string, Entry>, next: nat, magnet: string, now: int)
    requires IsMagnet(magnet)
    ensures var after := Access(entries - {magnet}, next, magnet, now);
      && after[magnet] == NewEntry(next, now)
      && after[magnet].videoFile.None?
      && Acquired(entries - {magnet}, next, magnet) == next + 1
  {
  }

  /** Metadata arrival settles the MIME type the way the video's name
      says: Matroska exactly for a `.mkv` video. */
  lemma MetadataMime(e: Entry, files: seq<TorrentFile>, now: int)
    ensures var after := WithMetadata(e, files, now);
      && (after.videoMime == "video/x-matroska" <==> after.videoFile.Some? && IsMkv(after.videoFile.value))
      && (after.videoMime == "video/mp4" <==> after.videoFile.None? || !IsMkv(after.videoFile.value))
  {
  }

  /** Every key is a magnet with a well-formed session; each session owns
      a live torrent of its own (distinct handles below `next`, none
      destroyed). */
  ghost predicate Table(entries: map<string, Entry>, next: nat, destroyed: set<nat>)
  {
    && (forall m :: m in entries ==> IsMagnet(m) && WellFormed(entries[m]))
    && (forall m :: m in entries ==> entries[m].torrent.id < next)
    && (forall m :: m in entries ==> entries[m].torrent.id !in destroyed)
    && (forall m, n :: m in entries && n in entries && m != n ==> entries[m].torrent.id != entries[n].torrent.id)
    && (forall h :: h in destroyed ==> h < next)
  }

  lemma AccessKeepsTable(entries: map<string, Entry>, next: nat, destroyed: set<nat>, magnet: string, now: int)
    requires Table(entries, next, destroyed)
    ensures Table(Access(entries, next, magnet, now), Acquired(entries, next, magnet), destroyed)
  {
    if IsMagnet(magnet) {
      if magnet in entries {
        RefreshKeepsTable(entries, next, destroyed, magnet, now);
      } else {
        AddKeepsTable(entries, next, destroyed, magnet, now);
      }
    }
  }

  /** Refreshing `lastAccess` touches nothing the table invariant is about. */
  lemma RefreshKeepsTable(entries: map<string, Entry>, next: nat, destroyed: set<nat>, magnet: string, now: int)
    requires Table(entries, next, destroyed) && magnet in entries
    ensures Table(entries[magnet := entries[magnet].(lastAccess := now)], next, destroyed)
  {
    var after := entries[magnet := entries[magnet].(lastAccess := now)];
    forall m | m in after
      ensures after[m].torrent.id == entries[m].torrent.id && WellFormed(after[m])
    {
    }
    SameHandlesKeepTable(entries, after, next, destroyed);
  }

  /** Metadata arrival keeps the session's handle and leaves it well formed. */
  lemma MetadataKeepsTable(entries: map<string, Entry>, next: nat, destroyed: set<nat>, magnet: string, files: seq<TorrentFile>, now: int)
    requires Table(entries, next, destroyed) && magnet in entries
    ensures Table(entries[magnet := WithMetadata(entries[magnet], files, now)], next, destroyed)
  {
    var after := entries[magnet := WithMetadata(entries[magnet], files, now)];
    forall m | m in after
      ensures after[m].torrent.id == entries[m].torrent.id && WellFormed(after[m])
    {
    }
    SameHandlesKeepTable(entries, after, next, destroyed);
  }

  /** Sessions that keep their handles and stay well formed keep the table
      invariant. */
  lemma SameHandlesKeepTable(entries: map<string, Entry>, after: map<string, Entry>, next: nat, destroyed: set<nat>)
    requires Table(entries, next, destroyed) && after.Keys == entries.Keys
    requires forall m :: m in after ==> after[m].torrent.id == entries[m].torrent.id && WellFormed(after[m])
    ensures Table(after, next, destroyed)
  {
  }

  /** A new session takes the next handle, which no session holds yet. */
  lemma AddKeepsTable(entries: map<string, Entry>, next: nat, destroyed: set<nat>, magnet: string, now: int)
    requires Table(entries, next, destroyed) && IsMagnet(magnet) && magnet !in entries
    ensures Table(entries[magnet := NewEntry(next, now)], next + 1, destroyed)
  {
    var after := entries[magnet := NewEntry(next, now)];
    assert WellFormed(NewEntry(next, now));
    forall m | m in after
      ensures after[m].torrent.id == (if m == magnet then next else entries[m].torrent.id)
    {
    }
  }

  datatype StatusReply =
    | StatusMissingParam
    | StatusNotFound
    | StatusReport(status: TorrentStatus, ready: bool)
  {
    function StatusCode(): int
    {
      match this
      case StatusMissingParam => 400
      case StatusNotFound => 404
      case StatusReport(_, _) => 200
    }
  }

  datatype SubtitleReply<P> = SubtitleMissingParam | SubtitleNotReady | Planned(plan: P)
  {
    function StatusCode(): int
    {
      match this
      case SubtitleMissingParam => 400
      case SubtitleNotReady => 503
      case Planned(_) => 200
    }
  }

  /** A query parameter that Express hands over as missing or empty. */
  predicate Absent(url: Option<string>)
  {
    url.None? || url.value == ""
  }

  class Registry {
    /** The `torrents` table. */
    var entries: map<string, Entry>
    /** How many times `client.add` was called; also the next handle. */
    var acquisitions: nat
    /** Handles whose torrent was destroyed. */
    var destroyed: set<nat>
    /** Every `select` issued, in order. */
    var selections: seq<PriorityRange>

    ghost predicate Valid()
      reads this
    {
      Table(entries, acquisitions, destroyed)
    }

    constructor ()
      ensures Valid()
      ensures entries == map[] && acquisitions == 0 && destroyed == {} && selections == []
    {
      entries, acquisitions, destroyed, selections := map[], 0, {}, [];
    }

    /** `getOrAddTorrent(magnet)`: `None` (the source's `null`) for a
        locator that is not a magnet; otherwise the session, created with
        one new acquisition if absent, refreshed (and its video's first
        mebibyte re-prioritised) if present. */
    method GetOrAdd(magnet: string, now: int) returns (r: Option<Entry>)
      requires Valid()
      modifies this
      ensures Valid()
      ensures entries == Access(old(entries), old(acquisitions), magnet, now)
      ensures acquisitions == Acquired(old(entries), old(acquisitions), magnet)
      ensures destroyed == old(destroyed)
      ensures selections == old(selections) + AccessHints(old(entries), magnet)
      ensures r == if IsMagnet(magnet) then Some(entries[magnet]) else None
    {
      AccessKeepsTable(entries, acquisitions, destroyed, magnet, now);
      if !IsMagnet(magnet) {
        return None;
      }
      if magnet in entries {
        var e := entries[magnet];
        if e.videoFile.Some? {
          selections := selections + [FirstMiB(e.videoFile.value)];
        }
        e := e.(lastAccess := now);
        entries := entries[magnet := e];
        return Some(e);
      }
      var e := NewEntry(acquisitions, now);
      acquisitions := acquisitions + 1;
      entries := entries[magnet := e];
      r := Some(e);
    }

    /** The `client.add` ready callback for `magnet`: record the files,
        pick the video and its MIME type, prioritise its first mebibyte and
        refresh `lastAccess`. Nothing happens if the session is gone. */
    method CompleteMetadata(magnet: string, files: seq<TorrentFile>, now: int)
      requires Valid()
      modifies this
      ensures Valid()
      ensures magnet !in old(entries) ==> entries == old(entries) && selections == old(selections)
      ensures magnet in old(entries) ==>
        entries == old(entries)[magnet := WithMetadata(old(entries)[magnet], files, now)]
      ensures magnet in old(entries) ==>
        selections == old(selections) + (match SelectVideo(files) case Some(v) => [FirstMiB(v)] case None => [])
      ensures acquisitions == old(acquisitions) && destroyed == old(destroyed)
    {
      if magnet !in entries {
        return;
      }
      MetadataKeepsTable(entries, acquisitions, destroyed, magnet, files, now);
      var e := WithMetadata(entries[magnet], files, now);
      entries := entries[magnet := e];
      if e.videoFile.Some? {
        selections := selections + [FirstMiB(e.videoFile.value)];
      }
    }

    /** `/goodbye`: always 200. An unknown or missing magnet changes
        nothing; a known one has its torrent destroyed (for the first and
        only time) and its entry deleted. */
    method Goodbye(url: Option<string>) returns (message: string)
      requires Valid()
      modifies this
      ensures Valid()
      ensures Absent(url) || url.value !in old(entries) ==>
        message == "No such torrent"
        && entries == old(entries) && destroyed == old(destroyed)
      ensures !Absent(url) && url.value in old(entries) ==>
        message == "Torrent destroyed"
        && entries == old(entries) - {url.value}
        && old(entries)[url.value].torrent.id !in old(destroyed)
        && destroyed == old(destroyed) + {old(entries)[url.value].torrent.id}
      ensures acquisitions == old(acquisitions) && selections == old(selections)
    {
      if Absent(url) || url.value !in entries {
        return "No such torrent";
      }
      var magnet := url.value;
      destroyed := destroyed + {entries[magnet].torrent.id};
      entries := entries - {magnet};
      message := "Torrent destroyed";
    }

    /** `/status`: 400 without a locator, 404 for a non-magnet, otherwise
        the classified telemetry and the `ready` flag of the session. */
    method StatusRoute(url: Option<string>, now: int, telemetry: Telemetry, videoDownloaded: int) returns (reply: StatusReply)
      requires Valid()
      modifies this
      ensures Valid()
      ensures Absent(url) ==> reply == StatusMissingParam && entries == old(entries) && selections == old(selections)
      ensures Absent(url) ==> acquisitions == old(acquisitions)
      ensures !Absent(url) ==> acquisitions == Acquired(old(entries), old(acquisitions), url.value)
      ensures destroyed == old(destroyed)
      ensures !Absent(url) ==>
        && entries == Access(old(entries), old(acquisitions), url.value, now)
        && selections == old(selections) + AccessHints(old(entries), url.value)
        && reply == if !IsMagnet(url.value) then StatusNotFound
                    else StatusReport(Classify(telemetry), Ready(entries[url.value].videoFile, videoDownloaded))
    {
      if Absent(url) {
        return StatusMissingParam;
      }
      var r := GetOrAdd(url.value, now);
      if r.None? {
        return StatusNotFound;
      }
      reply := StatusReport(Classify(telemetry), Ready(r.value.videoFile, videoDownloaded));
    }

    /** `/video`: 400 without a locator, otherwise the decision of `Serve`
        for the session's video (none for a non-magnet or a fresh
        session). */
    method VideoRoute(url: Option<string>, now: int, videoDownloaded: int, range: Option<string>) returns (reply: VideoResponse)
      requires Valid()
      modifies this
      ensures Valid()
      ensures Absent(url) ==> reply == MissingParam && entries == old(entries) && selections == old(selections)
      ensures Absent(url) ==> acquisitions == old(acquisitions)
      ensures !Absent(url) ==> acquisitions == Acquired(old(entries), old(acquisitions), url.value)
      ensures destroyed == old(destroyed)
      ensures !Absent(url) ==>
        && entries == Access(old(entries), old(acquisitions), url.value, now)
        && selections == old(selections) + AccessHints(old(entries), url.value)
        && reply == if !IsMagnet(url.value) then NotReady
                    else Serve(entries[url.value].videoFile, entries[url.value].videoMime, videoDownloaded, range)
    {
      if Absent(url) {
        return MissingParam;
      }
      var r := GetOrAdd(url.value, now);
      if r.None? {
        return NotReady;
      }
      reply := Serve(r.value.videoFile, r.value.videoMime, videoDownloaded, range);
    }

    /** `/subtitles`: 400 without a locator, 503 until there is a video,
        then the ASS plan for it. */
    method SubtitlesRoute(url: Option<string>, now: int) returns (reply: SubtitleReply<AssPlan>)
      requires Valid()
      modifies this
      ensures Valid()
      ensures Absent(url) ==> reply == SubtitleMissingParam && entries == old(entries) && selections == old(selections)
      ensures Absent(url) ==> acquisitions == old(acquisitions)
      ensures !Absent(url) ==> acquisitions == Acquired(old(entries), old(acquisitions), url.value)
      ensures destroyed == old(destroyed)
      ensures !Absent(url) ==>
        && entries == Access(old(entries), old(acquisitions), url.value, now)
        && selections == old(selections) + AccessHints(old(entries), url.value)
        && reply == if !IsMagnet(url.value) || entries[url.value].videoFile.None? then SubtitleNotReady
                    else Planned(ChooseAss(entries[url.value].videoFile.value))
    {
      if Absent(url) {
        return SubtitleMissingParam;
      }
      var r := GetOrAdd(url.value, now);
      if r.None? || r.value.videoFile.None? {
        return SubtitleNotReady;
      }
      reply := Planned(ChooseAss(r.value.videoFile.value));
    }

    /** `/subtitles.vtt`: 400 without a locator, 503 until there is a
        video, then the WebVTT plan over the torrent's files. */
    method SubtitlesVttRoute(url: Option<string>, now: int) returns (reply: SubtitleReply<VttPlan>)
      requires Valid()
      modifies this
      ensures Valid()
      ensures Absent(url) ==> reply == SubtitleMissingParam && entries == old(entries) && selections == old(selections)
      ensures Absent(url) ==> acquisitions == old(acquisitions)
      ensures !Absent(url) ==> acquisitions == Acquired(old(entries), old(acquisitions), url.value)
      ensures destroyed == old(destroyed)
      ensures !Absent(url) ==>
        && entries == Access(old(entries), old(acquisitions), url.value, now)
        && selections == old(selections) + AccessHints(old(entries), url.value)
        && reply == if !IsMagnet(url.value) || entries[url.value].videoFile.None? then SubtitleNotReady
                    else Planned(ChooseVtt(entries[url.value].torrent.files.value, entries[url.value].videoFile.value))
    {
      if Absent(url) {
        return SubtitleMissingParam;
      }
      var r := GetOrAdd(url.value, now);
      if r.None? || r.value.videoFile.None? {
        return SubtitleNotReady;
      }
      var e := r.value;
      reply := Planned(ChooseVtt(e.torrent.files.value, e.videoFile.value));
    }
  }
}

=== FILE: status.dfy ===
/** The `/status` projection: a coarse state computed from the torrent's
    telemetry, and the `ready` flag reported next to it. */
module Status {
  import opened Base
  import opened Media

  /** The telemetry fields the classification reads (`t.metadata`,
      `t.numPeers`, `t.downloaded`, `t.done`). */
  datatype Telemetry = Telemetry(metadata: bool, numPeers: int, downloaded: int, done: bool)

  datatype TorrentStatus = FetchingMetadata | NoPeers | Connecting | Done | Downloading

  /** The conditions are tried in a fixed order and the first that holds
      decides: no metadata, then no peers, then nothing downloaded, then
      complete; a torrent that passes all four is downloading. */
  function Classify(t: Telemetry): (s: TorrentStatus)
    ensures s == FetchingMetadata <==> !t.metadata
    ensures s == NoPeers <==> t.metadata && t.numPeers == 0
    ensures s == Connecting <==> t.metadata && t.numPeers != 0 && t.downloaded == 0
    ensures s == Done <==> t.metadata && t.numPeers != 0 && t.downloaded != 0 && t.done
    ensures s == Downloading <==> t.metadata && t.numPeers != 0 && t.downloaded != 0 && !t.done
  {
    if !t.metadata then FetchingMetadata
    else if t.numPeers == 0 then NoPeers
    else if t.downloaded == 0 then Connecting
    else if t.done then Done
    else Downloading
  }

  /** One step of the priority list: the status it yields if its guard holds. */
  datatype Rule = Rule(guard: bool, status: TorrentStatus)

  predicate Fires(r: Rule)
  {
    r.guard
  }

  /** The classification written as a priority list, highest first; the
      last rule always fires. */
  function Rules(t: Telemetry): seq<Rule>
  {
    [ Rule(!t.metadata, FetchingMetadata),
      Rule(t.numPeers == 0, NoPeers),
      Rule(t.downloaded == 0, Connecting),
      Rule(t.done, Done),
      Rule(true, Downloading) ]
  }

  /** `Classify` answers with the first rule of the priority list that fires. */
  lemma ClassifyByPriority(t: Telemetry)
    ensures exists i :: IsFirst(Rules(t), Fires, i) && Rules(t)[i].status == Classify(t)
  {
    var rules := Rules(t);
    var i := if !t.metadata then 0 else if t.numPeers == 0 then 1
      else if t.downloaded == 0 then 2 else if t.done then 3 else 4;
    assert forall j :: 0 <= j < i ==> !Fires(rules[j]);
    assert IsFirst(rules, Fires, i);
  }

  /** The `status` string of the JSON reply. */
  function StatusText(s: TorrentStatus): string
  {
    match s
    case FetchingMetadata => "fetching metadata"
    case NoPeers => "no peers"
    case Connecting => "connecting"
    case Done => "done"
    case Downloading => "downloading"
  }

  /** Each state has its own text, so a client can tell all five apart. */
  lemma StatusTextDistinct(a: TorrentStatus, b: TorrentStatus)
    requires a != b
    ensures StatusText(a) != StatusText(b)
  {
  }

  /** The `ready` flag: there is a video and some of it has arrived. */
  function Ready(video: Option<TorrentFile>, videoDownloaded: int): (ready: bool)
  {
    video.Some? && videoDownloaded > 0
  }

  /** A finished torrent that has lost its peers is reported as having no
      peers, not as done: the peer test comes first. */
  lemma DoneWithoutPeersIsNoPeers(t: Telemetry)
    requires t.metadata && t.done && t.numPeers == 0
    ensures Classify(t) == NoPeers
  {
  }
}

=== FILE: subtitles.dfy ===
/** Where the subtitles of `/subtitles` (ASS) and `/subtitles.vtt` (WebVTT)
    come from, and the placeholder documents sent when there are none. */
module Subtitles {
  import opened Base
  import opened Text
  import opened Media

  /** The other subtitle formats `/subtitles.vtt` converts, in the order
      they are tried against each file name. */
  const SubtitleExtensions: seq<string> := [".srt", ".sub", ".ssa", ".txt", ".ass"]

  /** A WebVTT sidecar; the extension is compared case-insensitively. */
  predicate IsVttFile(f: TorrentFile)
  {
    EndsWith(Lower(f.name), ".vtt")
  }

  /** A sidecar in one of the other subtitle formats, case-insensitively. */
  predicate IsOtherSubtitleFile(f: TorrentFile)
  {
    exists i :: 0 <= i < |SubtitleExtensions| && EndsWith(Lower(f.name), SubtitleExtensions[i])
  }

  /** The two kinds of sidecar never overlap: every other extension is as
      long as `.vtt` and differs from it. */
  lemma OtherSubtitleIsNotVtt(f: TorrentFile)
    requires IsOtherSubtitleFile(f)
    ensures !IsVttFile(f)
  {
    var i :| 0 <= i < |SubtitleExtensions| && EndsWith(Lower(f.name), SubtitleExtensions[i]);
    EndsWithExclusive(Lower(f.name), SubtitleExtensions[i], ".vtt");
  }

  // WebVTT placeholders (W3C WebVTT, section 4.1: a file starts with the
  // "WEBVTT" signature; a NOTE block carries a comment).

  const VttNotePrefix: string := "WEBVTT\n\nNOTE "

  /** The WebVTT document that carries only a note with `message`. */
  function VttNote(message: string): (body: string)
    ensures StartsWith(body, "WEBVTT")
  {
    VttNotePrefix + message
  }

  /** Reads the note text back out of a placeholder document. */
  function VttNoteText(body: string): (message: Option<string>)
    ensures message.Some? ==> body == VttNotePrefix + message.value
  {
    if StartsWith(body, VttNotePrefix) then
      assert body == body[..|VttNotePrefix|] + body[|VttNotePrefix|..];
      Some(body[|VttNotePrefix|..])
    else None
  }

  lemma VttNoteRoundTrip(message: string)
    ensures VttNoteText(VttNote(message)) == Some(message)
  {
    assert VttNote(message)[..|VttNotePrefix|] == VttNotePrefix;
  }

  // ASS placeholders: a complete script with one style and one dialogue
  // line showing a reason.

  const AssTitlePrefix: string := "[Script Info]\nTitle: "

  const AssBeforeText: string :=
    "\nScriptType: v4.00+\n\n[V4+ Styles]\n"
    + "Format: Name, Fontname, Fontsize, PrimaryColour, SecondaryColour, OutlineColour, BackColour, Bold, Italic, Underline, StrikeOut, ScaleX, ScaleY, Spacing, Angle, BorderStyle, Outline, Shadow, Alignment, MarginL, MarginR, MarginV, Encoding\n"
    + "Style: Default,Arial,16,&H00FFFFFF,&H000000FF,&H00000000,&H00000000,0,0,0,0,100,100,0,0,1,2,0,2,10,10,10,1\n\n[Events]\n"
    + "Format: Layer, Start, End, Style, Name, MarginL, MarginR, MarginV, Effect, Text\n"
    + "Dialogue: 0,0:00:01.00,0:00:05.00,Default,,0,0,0,,"

  /** An ASS script titled `title` whose single dialogue line shows `text`
      from 0:00:01 to 0:00:05. */
  function AssDocument(title: string, text: string): (doc: string)
    ensures StartsWith(doc, "[Script Info]")
    ensures EndsWith(doc, text)
  {
    var doc := AssTitlePrefix + title + (AssBeforeText + text);
    assert doc[..13] == AssTitlePrefix[..13];
    assert doc[|doc| - |text|..] == text;
    doc
  }

  /** Reads the `Title:` line back out of an ASS script that starts with
      the script-info header. */
  function AssTitle(doc: string): Option<string>
  {
    if StartsWith(doc, AssTitlePrefix) then
      var rest := doc[|AssTitlePrefix|..];
      match IndexOf(rest, "\n")
      case Some(k) => Some(rest[..k])
      case None => Some(rest)
    else None
  }

  /** The title is read up to the first line break after the prefix. */
  lemma {:induction false} TitleLine(title: string, after: string)
    requires '\n' !in title && |after| > 0 && after[0] == '\n'
    ensures AssTitle(AssTitlePrefix + title + after) == Some(title)
  {
    var doc := AssTitlePrefix + title + after;
    assert doc[..|AssTitlePrefix|] == AssTitlePrefix;
    var rest := doc[|AssTitlePrefix|..];
    assert rest == title + after;
    assert rest[|title|..|title| + 1] == "\n";
    assert OccursAt(rest, "\n", |title|);
    forall j | 0 <= j < |title| ensures !OccursAt(rest, "\n", j) {
      assert rest[j] == title[j];
    }
    assert IndexOf(rest, "\n") == Some(|title|);
    assert rest[..|title|] == title;
  }

  lemma BeforeTextStartsLine()
    ensures |AssBeforeText| > 0 && AssBeforeText[0] == '\n'
  {
  }

  /** A one-line title is recovered from the script it was written into. */
  lemma AssTitleRoundTrip(title: string, text: string)
    requires '\n' !in title
    ensures AssTitle(AssDocument(title, text)) == Some(title)
  {
    BeforeTextStartsLine();
    TitleLine(title, AssBeforeText + text);
  }

  /** The placeholder for a failed extraction or conversion: the reason is
      both the title and the dialogue text. */
  function AssFallback(message: string): (doc: string)
    ensures StartsWith(doc, "[Script Info]") && EndsWith(doc, message)
    ensures '\n' !in message ==> AssTitle(doc) == Some(message)
  {
    var doc := AssDocument(message, message);
    assert '\n' !in message ==> AssTitle(doc) == Some(message) by {
      if '\n' !in message { AssTitleRoundTrip(message, message); }
    }
    doc
  }

  /** The placeholder for a video that is not Matroska. Its title and its
      dialogue text differ, unlike every `AssFallback`. */
  const NoSubtitlesAss: string := AssDocument("No Subtitles", "No subtitles available")

  lemma NoSubtitlesAssTitle()
    ensures AssTitle(NoSubtitlesAss) == Some("No Subtitles")
    ensures EndsWith(NoSubtitlesAss, "No subtitles available")
  {
    AssTitleRoundTrip("No Subtitles", "No subtitles available");
  }

  /** `/subtitles.vtt`: stream a `.vtt` sidecar, convert another subtitle
      sidecar, send the "no subtitles" note, or extract the first subtitle
      track from the video. */
  datatype VttPlan =
    | ServeSidecar(file: TorrentFile)
    | ConvertSidecar(file: TorrentFile)
    | VttPlaceholder(body: string)
    | ExtractVtt

  /** `/subtitles`: the "no subtitles" script, or extraction of the first
      subtitle track as ASS. */
  datatype AssPlan = AssPlaceholder(body: string) | ExtractAss

  function ChooseVtt(files: seq<TorrentFile>, video: TorrentFile): (plan: VttPlan)
    ensures plan.ServeSidecar? <==> exists i :: 0 <= i < |files| && IsVttFile(files[i])
    ensures plan.ServeSidecar? ==> exists i :: IsFirst(files, IsVttFile, i) && files[i] == plan.file
    ensures plan.ConvertSidecar? <==>
      (forall i :: 0 <= i < |files| ==> !IsVttFile(files[i]))
      && exists i :: 0 <= i < |files| && IsOtherSubtitleFile(files[i])
    ensures plan.ConvertSidecar? ==> exists i :: IsFirst(files, IsOtherSubtitleFile, i) && files[i] == plan.file
    ensures plan.VttPlaceholder? <==>
      (forall i :: 0 <= i < |files| ==> !IsVttFile(files[i]) && !IsOtherSubtitleFile(files[i]))
      && !IsMkv(video)
    ensures plan.VttPlaceholder? ==> VttNoteText(plan.body) == Some("No subtitles available")
    ensures plan.ExtractVtt? <==>
      (forall i :: 0 <= i < |files| ==> !IsVttFile(files[i]) && !IsOtherSubtitleFile(files[i]))
      && IsMkv(video)
  {
    match Find(files, IsVttFile)
    case Some(f) => ServeSidecar(f)
    case None =>
      match Find(files, IsOtherSubtitleFile)
      case Some(f) => ConvertSidecar(f)
      case None =>
        if !IsMkv(video) then
          VttNoteRoundTrip("No subtitles available");
          VttPlaceholder(VttNote("No subtitles available"))
        else ExtractVtt
  }

  function ChooseAss(video: TorrentFile): (plan: AssPlan)
    ensures plan.AssPlaceholder? <==> !IsMkv(video)
    ensures plan.AssPlaceholder? ==> AssTitle(plan.body) == Some("No Subtitles")
  {
    if !IsMkv(video) then
      NoSubtitlesAssTitle();
      AssPlaceholder(NoSubtitlesAss)
    else ExtractAss
  }

  /** A `.vtt` sidecar is served whatever else the torrent holds and
      whatever the video's container is; the sidecar matching is
      case-insensitive. */
  lemma VttSidecarWins(files: seq<TorrentFile>, video: TorrentFile, i: int)
    requires 0 <= i < |files| && EndsWith(files[i].name, ".VTT")
    ensures ChooseVtt(files, video).ServeSidecar?
  {
    LowerEndsWith(files[i].name, ".VTT");
    assert Lower(".VTT") == ".vtt";
  }
}

=== FILE: text.dfy ===
/** The JavaScript string operations the server relies on: `startsWith`,
    `endsWith`, `toLowerCase` (on ASCII letters), `replace` with a literal
    pattern (first occurrence only) and `split` on a one-character
    separator. */
module Text {
  import opened Base

  predicate StartsWith(s: string, prefix: string)
  {
    |prefix| <= |s| && s[..|prefix|] == prefix
  }

  predicate EndsWith(s: string, suffix: string)
  {
    |suffix| <= |s| && s[|s| - |suffix|..] == suffix
  }

  /** Two different suffixes of the same length cannot both end a string. */
  lemma EndsWithExclusive(s: string, a: string, b: string)
    requires |a| == |b| && a != b
    ensures !(EndsWith(s, a) && EndsWith(s, b))
  {
  }

  function LowerChar(c: char): char
  {
    if 'A' <= c <= 'Z' then (c as int + 32) as char else c
  }

  /** `toLowerCase`, restricted to the ASCII letters. */
  function Lower(s: string): (r: string)
    ensures |r| == |s|
    ensures forall i :: 0 <= i < |s| ==> r[i] == LowerChar(s[i])
  {
    if s == [] then [] else [LowerChar(s[0])] + Lower(s[1..])
  }

  /** Lower-casing the end of a string is lower-casing a suffix of it. */
  lemma {:induction false} LowerEndsWith(s: string, suffix: string)
    requires EndsWith(s, suffix)
    ensures EndsWith(Lower(s), Lower(suffix))
  {
    var t := Lower(s)[|s| - |suffix|..];
    assert |t| == |suffix|;
    forall i | 0 <= i < |suffix| ensures t[i] == Lower(suffix)[i] {
      assert t[i] == LowerChar(s[|s| - |suffix| + i]);
      assert s[|s| - |suffix| + i] == suffix[i];
    }
  }

  predicate OccursAt(s: string, pattern: string, i: int)
  {
    0 <= i && i + |pattern| <= |s| && s[i..i + |pattern|] == pattern
  }

  /** Index of the first occurrence of `pattern` in `s` at or after `from`. */
  function IndexOfFrom(s: string, pattern: string, from: nat): (r: Option<nat>)
    decreases |s| - from
    ensures r.Some? ==> from <= r.value && OccursAt(s, pattern, r.value)
    ensures r.Some? ==> forall j :: from <= j < r.value ==> !OccursAt(s, pattern, j)
    ensures r.None? ==> forall j :: from <= j ==> !OccursAt(s, pattern, j)
  {
    if from + |pattern| > |s| then None
    else if s[from..from + |pattern|] == pattern then Some(from)
    else IndexOfFrom(s, pattern, from + 1)
  }

  /** Index of the first occurrence of `pattern` in `s`, as `indexOf` finds it. */
  function IndexOf(s: string, pattern: string): (r: Option<nat>)
    ensures r.Some? ==> OccursAt(s, pattern, r.value)
    ensures r.Some? ==> forall j :: 0 <= j < r.value ==> !OccursAt(s, pattern, j)
    ensures r.None? ==> forall j :: 0 <= j ==> !OccursAt(s, pattern, j)
  {
    IndexOfFrom(s, pattern, 0)
  }

  /** `s.replace(/pattern/, replacement)` for a pattern without metacharacters:
      only the first occurrence is replaced, wherever it is. */
  function ReplaceFirst(s: string, pattern: string, replacement: string): (r: string)
    ensures (forall j :: 0 <= j ==> !OccursAt(s, pattern, j)) ==> r == s
    ensures StartsWith(s, pattern) ==> r == replacement + s[|pattern|..]
  {
    match IndexOf(s, pattern)
    case None => s
    case Some(k) => s[..k] + replacement + s[k + |pattern|..]
  }

  /** Glues the parts back together with `sep` between neighbours
      (`parts.join(sep)`). */
  function Join(parts: seq<string>, sep: char): string
  {
    if |parts| == 0 then ""
    else if |parts| == 1 then parts[0]
    else parts[0] + [sep] + Join(parts[1..], sep)
  }

  /** `s.split(sep)`: the maximal runs of non-separator characters, one more
      part than there are separators, empty parts included. */
  function Split(s: string, sep: char): (parts: seq<string>)
    ensures |parts| >= 1
    ensures forall i :: 0 <= i < |parts| ==> sep !in parts[i]
    ensures Join(parts, sep) == s
  {
    if |s| == 0 then [""]
    else
      var rest := Split(s[1..], sep);
      if s[0] == sep then
        assert s == [sep] + s[1..];
        [""] + rest
      else
        var parts := [[s[0]] + rest[0]] + rest[1..];
        assert parts[1..] == rest[1..];
        assert s == [s[0]] + s[1..];
        parts
  }

  /** Splitting a string that has no separator gives the string back whole. */
  lemma {:induction false} SplitNoSeparator(s: string, sep: char)
    requires sep !in s
    ensures Split(s, sep) == [s]
  {
    if |s| > 0 {
      assert sep !in s[1..] by {
        forall i | 0 <= i < |s| - 1 ensures s[1..][i] != sep { assert s[1..][i] == s[i + 1]; }
      }
      SplitNoSeparator(s[1..], sep);
      assert s == [s[0]] + s[1..];
    }
  }

  /** Splitting at the first separator peels off the text before it. */
  lemma {:induction false} SplitAtFirst(a: string, sep: char, b: string)
    requires sep !in a
    ensures Split(a + [sep] + b, sep) == [a] + Split(b, sep)
  {
    var s := a + [sep] + b;
    if |a| == 0 {
      assert s[1..] == b;
    } else {
      assert s[1..] == a[1..] + [sep] + b;
      assert sep !in a[1..] by {
        forall i | 0 <= i < |a| - 1 ensures a[1..][i] != sep { assert a[1..][i] == a[i + 1]; }
      }
      SplitAtFirst(a[1..], sep, b);
      assert [a[0]] + a[1..] == a;
    }
  }
}

=== FILE: video.dfy ===
/** The `/video` decision: whether the video may be streamed yet, and the
    status and headers of the reply for a request with or without a
    `Range: bytes=S-E` header (RFC 7233 section 2.1 byte-range-spec and
    section 4.2 Content-Range), read without any bounds check. */
module Video {
  import opened Base
  import opened Text
  import opened Numbers
  import opened Media
  import opened Status

  datatype VideoResponse =
    | MissingParam
    | NotReady
      /** 200: the whole file is streamed. */
    | Whole(contentType: string, length: int)
      /** 206: bytes `start..end` of a file of `length` bytes are streamed;
          `None` is a `NaN` that `parseInt` produced. */
    | Partial(contentType: string, start: Option<int>, end: Option<int>, chunkSize: Option<int>, length: int)
  {
    function StatusCode(): int
    {
      match this
      case MissingParam => 400
      case NotReady => 503
      case Whole(_, _) => 200
      case Partial(_, _, _, _, _) => 206
    }

    /** The headers set on the reply, in the order they are set. */
    function Headers(): seq<(string, string)>
    {
      match this
      case MissingParam => []
      case NotReady => []
      case Whole(mime, length) =>
        [("Content-Type", mime), ("Content-Length", ShowInt(length))]
      case Partial(mime, start, end, chunkSize, length) =>
        [ ("Content-Range", ContentRange(start, end, length)),
          ("Accept-Ranges", "bytes"),
          ("Content-Length", ShowNumber(chunkSize)),
          ("Content-Type", mime) ]
    }
  }

  /** The `Content-Range` value of a 206 reply (RFC 7233 section 4.2),
      `bytes S-E/L`, printed as the template literal prints its numbers. */
  function ContentRange(start: Option<int>, end: Option<int>, length: int): string
  {
    "bytes " + ShowNumber(start) + "-" + ShowNumber(end) + "/" + ShowInt(length)
  }

  /** `end - start + 1`, which is `NaN` as soon as either bound is. */
  function ChunkSize(start: Option<int>, end: Option<int>): (r: Option<int>)
    ensures r.Some? <==> start.Some? && end.Some?
    ensures r.Some? ==> r.value + start.value == end.value + 1
  {
    if start.Some? && end.Some? then Some(end.value - start.value + 1) else None
  }

  /** The bounds a `Range` header names: the first `bytes=` anywhere is
      removed, the rest is cut at every `-`, the first part is the start and
      the second, unless it is missing or empty, the end; otherwise the end
      is the last byte of the file. */
  function RangeBounds(header: string, fileLength: int): (bounds: (Option<int>, Option<int>))
  {
    var parts := Split(ReplaceFirst(header, "bytes=", ""), '-');
    var start := ParseInt(parts[0]);
    var end := if |parts| > 1 && parts[1] != "" then ParseInt(parts[1]) else Some(fileLength - 1);
    (start, end)
  }

  /** The reply to `/video` for a request that names a locator, given the
      session's video (if metadata found one), its MIME type, how many of
      its bytes have arrived and the `Range` header (absent or empty means
      none). */
  function Serve(video: Option<TorrentFile>, mime: string, downloaded: int, range: Option<string>): (r: VideoResponse)
    ensures r.NotReady? <==> video.None? || downloaded < MiB
    ensures r.Whole? <==> video.Some? && downloaded >= MiB && (range.None? || range.value == "")
    ensures r.Partial? <==> video.Some? && downloaded >= MiB && range.Some? && range.value != ""
    ensures r.Whole? ==> r.contentType == mime && r.length == video.value.length
    ensures r.Partial? ==> r.contentType == mime && r.length == video.value.length
    ensures r.Partial? ==> r.chunkSize == ChunkSize(r.start, r.end)
  {
    if video.None? then NotReady
    else if downloaded < MiB then NotReady
    else if range.None? || range.value == "" then Whole(mime, video.value.length)
    else
      var (start, end) := RangeBounds(range.value, video.value.length);
      Partial(mime, start, end, ChunkSize(start, end), video.value.length)
  }

  lemma ChunkSizeOf(start: Option<int>, end: Option<int>, s: int, e: int)
    requires start == Some(s) && end == Some(e)
    ensures ChunkSize(start, end) == Some(e - s + 1)
  {
  }

  /** A 206 reply announces its range, its unit, its size and its type,
      in that order. */
  lemma PartialReplyHeaders(r: VideoResponse, mime: string, start: Option<int>, end: Option<int>, size: Option<int>, length: int)
    requires r == Partial(mime, start, end, size, length)
    ensures r.StatusCode() == 206
    ensures r.Headers() ==
      [ ("Content-Range", ContentRange(start, end, length)),
        ("Accept-Ranges", "bytes"),
        ("Content-Length", ShowNumber(size)),
        ("Content-Type", mime) ]
  {
  }

  /** A ready video with a non-empty `Range` header is answered 206 with
      whatever bounds the header parses to, numbers or `NaN`, and their
      `ChunkSize` as its length, whatever the bounds are relative to each
      other or to the file. */
  lemma ServeBounds(video: TorrentFile, mime: string, downloaded: int, header: string, start: Option<int>, end: Option<int>)
    requires downloaded >= MiB && header != ""
    requires RangeBounds(header, video.length) == (start, end)
    ensures Serve(Some(video), mime, downloaded, Some(header))
      == Partial(mime, start, end, ChunkSize(start, end), video.length)
  {
  }

  /** The text a request sends for the range `start..end`. */
  function ClosedRangeHeader(start: nat, end: nat): string
  {
    "bytes=" + ShowNat(start) + "-" + ShowNat(end)
  }

  /** Removing the unit leaves the range set. */
  lemma StripUnit(rest: string)
    ensures ReplaceFirst("bytes=" + rest, "bytes=", "") == rest
  {
    var header := "bytes=" + rest;
    assert StartsWith(header, "bytes=");
    assert header[|"bytes="|..] == rest;
  }

  /** `bytes=A-B` with dash-free `A` and `B` parses `A` as the start, and
      `B` as the end unless it is empty. */
  lemma RangeBoundsParts(a: string, b: string, fileLength: int)
    requires '-' !in a && '-' !in b
    ensures RangeBounds("bytes=" + a + "-" + b, fileLength)
      == (ParseInt(a), if b != "" then ParseInt(b) else Some(fileLength - 1))
  {
    var rest := a + "-" + b;
    assert "bytes=" + a + "-" + b == "bytes=" + rest;
    StripUnit(rest);
    SplitAtFirst(a, '-', b);
    SplitNoSeparator(b, '-');
    var parts := Split(rest, '-');
    assert parts == [a, b];
  }

  /** A header with no dash after the unit names no end: the end is the
      last byte of the file, as for `bytes=500`. */
  lemma RangeBoundsWithoutDash(header: string, fileLength: int)
    requires '-' !in ReplaceFirst(header, "bytes=", "")
    ensures RangeBounds(header, fileLength).1 == Some(fileLength - 1)
  {
    SplitNoSeparator(ReplaceFirst(header, "bytes=", ""), '-');
  }

  /** `bytes=S-E` parses to `S` and `E`. */
  lemma RangeBoundsClosed(start: nat, end: nat, fileLength: int)
    ensures RangeBounds(ClosedRangeHeader(start, end), fileLength) == (Some(start), Some(end))
  {
    var a, b := ShowNat(start), ShowNat(end);
    assert '-' !in a by { assert forall i :: 0 <= i < |a| ==> IsDigit(a[i]); }
    assert '-' !in b by { assert forall i :: 0 <= i < |b| ==> IsDigit(b[i]); }
    RangeBoundsParts(a, b, fileLength);
    ParseShowInt(start);
    ParseShowInt(end);
  }

  /** `Range: bytes=S-E` on a ready video: 206 with exactly `S`, `E` and a
      length of `E - S + 1`, whatever `S` and `E` are relative to each
      other or to the file. */
  lemma ServeClosedRange(video: TorrentFile, mime: string, downloaded: int, start: nat, end: nat)
    requires downloaded >= MiB
    ensures Serve(Some(video), mime, downloaded, Some(ClosedRangeHeader(start, end)))
      == Partial(mime, Some(start), Some(end), Some(end - start + 1), video.length)
  {
    RangeBoundsClosed(start, end, video.length);
    ServeBounds(video, mime, downloaded, ClosedRangeHeader(start, end), Some(start), Some(end));
    ChunkSizeOf(Some(start), Some(end), start, end);
  }

  /** The reply to `Range: bytes=S-E`, as the client sees it: status 206,
      then `Content-Range: bytes S-E/L`, `Accept-Ranges: bytes`,
      `Content-Length: E-S+1` and the type, in that order. */
  lemma ClosedRangeReply(video: TorrentFile, mime: string, downloaded: int, start: nat, end: nat)
    requires downloaded >= MiB
    ensures var r := Serve(Some(video), mime, downloaded, Some(ClosedRangeHeader(start, end)));
      && r.StatusCode() == 206
      && r.Headers() ==
        [ ("Content-Range", ContentRange(Some(start), Some(end), video.length)),
          ("Accept-Ranges", "bytes"),
          ("Content-Length", ShowNumber(Some(end - start + 1))),
          ("Content-Type", mime) ]
  {
    ServeClosedRange(video, mime, downloaded, start, end);
    var r := Serve(Some(video), mime, downloaded, Some(ClosedRangeHeader(start, end)));
    PartialReplyHeaders(r, mime, Some(start), Some(end), Some(end - start + 1), video.length);
  }

  /** The text a request sends for the range from `start` to the end. */
  function OpenRangeHeader(start: nat): string
  {
    "bytes=" + ShowNat(start) + "-"
  }

  /** `bytes=S-` parses to `S` and the last byte of the file, `L - 1`. */
  lemma RangeBoundsOpen(start: nat, fileLength: int)
    ensures RangeBounds(OpenRangeHeader(start), fileLength) == (Some(start), Some(fileLength - 1))
  {
    var a := ShowNat(start);
    assert OpenRangeHeader(start) == "bytes=" + a + "-" + "";
    assert '-' !in a by { assert forall i :: 0 <= i < |a| ==> IsDigit(a[i]); }
    RangeBoundsParts(a, "", fileLength);
    ParseShowInt(start);
  }

  /** The reply to `Range: bytes=S-` on a video of length `L`: status
      206, `Content-Range: bytes S-(L-1)/L` and as `Content-Length` the
      chunk from `S` to `L-1`, which `OpenRangeLength` shows is `L-S` bytes. */
  lemma OpenRangeReply(video: TorrentFile, mime: string, downloaded: int, start: nat)
    requires downloaded >= MiB
    ensures var r := Serve(Some(video), mime, downloaded, Some(OpenRangeHeader(start)));
      && r.StatusCode() == 206
      && r.Headers() ==
        [ ("Content-Range", ContentRange(Some(start), Some(video.length - 1), video.length)),
          ("Accept-Ranges", "bytes"),
          ("Content-Length", ShowNumber(ChunkSize(Some(start), Some(video.length - 1)))),
          ("Content-Type", mime) ]
  {
    ServeOpenRange(video, mime, downloaded, start);
    var r := Serve(Some(video), mime, downloaded, Some(OpenRangeHeader(start)));
    PartialReplyHeaders(r, mime, Some(start), Some(video.length - 1), ChunkSize(Some(start), Some(video.length - 1)), video.length);
  }

  /** `Range: bytes=S-` on a ready video of length `L`: 206 from `S` to
      the last byte, `L - 1`. */
  lemma ServeOpenRange(video: TorrentFile, mime: string, downloaded: int, start: nat)
    requires downloaded >= MiB
    ensures Serve(Some(video), mime, downloaded, Some(OpenRangeHeader(start)))
      == Partial(mime, Some(start), Some(video.length - 1), ChunkSize(Some(start), Some(video.length - 1)), video.length)
  {
    RangeBoundsOpen(start, video.length);
    ServeBounds(video, mime, downloaded, OpenRangeHeader(start), Some(start), Some(video.length - 1));
  }

  /** `bytes=S-` is answered with `Content-Length: L-S`. */
  lemma OpenRangeLength(video: TorrentFile, mime: string, downloaded: int, start: nat)
    requires downloaded >= MiB
    ensures Serve(Some(video), mime, downloaded, Some(OpenRangeHeader(start))).Headers()[2]
      == ("Content-Length", ShowInt(video.length - start))
  {
    OpenRangeReply(video, mime, downloaded, start);
    ChunkToEnd(start, video.length);
  }

  /** The chunk from `S` to the last byte `L-1` is `L-S` bytes long. */
  lemma ChunkToEnd(start: int, length: int)
    ensures ChunkSize(Some(start), Some(length - 1)) == Some(length - start)
  {
    var size := ChunkSize(Some(start), Some(length - 1));
    assert size.value == length - start;
  }

  /** The suffix form `bytes=-N` of RFC 7233 is not recognised: its empty
      first part makes the start `NaN`, so the reply announces
      `Content-Range: bytes NaN-N/L` and `Content-Length: NaN`. */
  lemma SuffixRangeReply(video: TorrentFile, mime: string, downloaded: int, n: nat)
    requires downloaded >= MiB
    ensures var r := Serve(Some(video), mime, downloaded, Some(SuffixRangeHeader(n)));
      && r == Partial(mime, None, Some(n), None, video.length)
      && r.Headers() ==
        [ ("Content-Range", ContentRange(None, Some(n), video.length)),
          ("Accept-Ranges", "bytes"),
          ("Content-Length", "NaN"),
          ("Content-Type", mime) ]
  {
    RangeBoundsSuffix(n, video.length);
    ServeBounds(video, mime, downloaded, SuffixRangeHeader(n), None, Some(n));
    PartialReplyHeaders(Serve(Some(video), mime, downloaded, Some(SuffixRangeHeader(n))), mime, None, Some(n), None, video.length);
  }

  /** The text a request sends for the last `n` bytes. */
  function SuffixRangeHeader(n: nat): string
  {
    "bytes=-" + ShowNat(n)
  }

  /** `bytes=-N` parses to `NaN` and `N`. */
  lemma RangeBoundsSuffix(n: nat, fileLength: int)
    ensures RangeBounds(SuffixRangeHeader(n), fileLength) == (None, Some(n))
  {
    var b := ShowNat(n);
    assert SuffixRangeHeader(n) == "bytes=" + "" + "-" + b;
    assert '-' !in b by { assert forall i :: 0 <= i < |b| ==> IsDigit(b[i]); }
    RangeBoundsParts("", b, fileLength);
    assert ParseInt("") == None;
    ParseShowInt(n);
  }

  /** `bytes=A-B-C` with dash-free `A` and non-empty, dash-free `B` parses
      `A` as the start and `B` as the end; everything after the second dash
      is ignored. */
  lemma RangeBoundsThreeParts(a: string, b: string, c: string, fileLength: int)
    requires '-' !in a && '-' !in b && b != ""
    ensures RangeBounds("bytes=" + a + "-" + b + "-" + c, fileLength) == (ParseInt(a), ParseInt(b))
  {
    var rest := a + "-" + (b + "-" + c);
    assert "bytes=" + a + "-" + b + "-" + c == "bytes=" + rest;
    StripUnit(rest);
    SplitAtFirst(a, '-', b + "-" + c);
    SplitAtFirst(b, '-', c);
  }

  /** The text a request sends for two ranges, `bytes=S-E,D-C`, where `D`
      has no dash. */
  function MultiRangeHeader(start: nat, end: nat, d: string, c: string): string
  {
    "bytes=" + ShowNat(start) + "-" + ShowNat(end) + "," + d + "-" + c
  }

  /** A header naming several ranges is read as its first range alone:
      the second part is `E,D`, which `parseInt` reads as `E`. */
  lemma RangeBoundsFirstOfMany(start: nat, end: nat, d: string, c: string, fileLength: int)
    requires '-' !in d
    ensures RangeBounds(MultiRangeHeader(start, end, d, c), fileLength) == (Some(start), Some(end))
  {
    var a, e := ShowNat(start), ShowNat(end);
    var b := e + ("," + d);
    assert '-' !in a by { assert forall i :: 0 <= i < |a| ==> IsDigit(a[i]); }
    assert '-' !in b by { assert forall i :: 0 <= i < |e| ==> IsDigit(e[i]); }
    assert MultiRangeHeader(start, end, d, c) == "bytes=" + a + "-" + b + "-" + c;
    RangeBoundsThreeParts(a, b, c, fileLength);
    assert ShowInt(start) == a;
    ParseShowInt(start);
    ParseNatThenText(end, "," + d);
  }

  /** `Range: bytes=S-E,D-C` on a ready video: 206 for the first range
      only, `S` to `E`, `E - S + 1` bytes (no multipart reply). */
  lemma ServeMultiRange(video: TorrentFile, mime: string, downloaded: int, start: nat, end: nat, d: string, c: string)
    requires downloaded >= MiB && '-' !in d
    ensures Serve(Some(video), mime, downloaded, Some(MultiRangeHeader(start, end, d, c)))
      == Partial(mime, Some(start), Some(end), Some(end - start + 1), video.length)
  {
    RangeBoundsFirstOfMany(start, end, d, c, video.length);
    ServeBounds(video, mime, downloaded, MultiRangeHeader(start, end, d, c), Some(start), Some(end));
    ChunkSizeOf(Some(start), Some(end), start, end);
  }

  /** Without a `Range` header a ready video is sent whole, announcing its
      full length. */
  lemma ServeWhole(video: TorrentFile, mime: string, downloaded: int)
    requires downloaded >= MiB
    ensures var r := Serve(Some(video), mime, downloaded, None);
      && r.StatusCode() == 200
      && r.Headers() == [("Content-Type", mime), ("Content-Length", ShowInt(video.length))]
  {
  }

  /** A video shorter than one mebibyte can never reach the threshold, so it
      is answered 503 however much of it has arrived. */
  lemma SmallVideoNeverServed(video: TorrentFile, mime: string, downloaded: int, range: Option<string>)
    requires video.length < MiB && downloaded <= video.length
    ensures Serve(Some(video), mime, downloaded, range).StatusCode() == 503
  {
  }

  /** Whatever `/video` streams, `/status` already reports as ready; the
      converse fails, since `ready` only needs one byte. */
  lemma ServedImpliesReady(video: Option<TorrentFile>, mime: string, downloaded: int, range: Option<string>)
    ensures Serve(video, mime, downloaded, range).StatusCode() != 503 ==> Ready(video, downloaded)
    ensures video.Some? && 0 < downloaded < MiB ==>
      Ready(video, downloaded) && Serve(video, mime, downloaded, range).StatusCode() == 503
  {
  }
}
